=== FILE: README.md ===
# Qublog browser logic, modelled in Dafny

Qublog is a time-tracking journal. Its browser scripts are mostly event
wiring, but three parts of them compute something, and those are what this
project models as pure functions over immutable values:

- **The journal timer refresh** (`Qublog.Journal.updateActiveTimers`, run every
  five seconds). It sums a day total over running and stopped entries. It
  rewrites each live entry's elapsed hours and every running entry's total
  hours. It then derives the
  hours still to work against an 8-hour target and a projected quitting time.
  The model also covers the 12-hour clock rendering `formatTime`, the
  two-decimal hour rendering `formatHours`, and the check the
  `updateJournalThingyButton` callback applies to the server's proposed
  button label.
- **Task list requests** (`Qublog.Project.drop` and the `.task .subject`
  behaviour). These build the parameters passed to `Jifty.update` when a task
  is dropped onto a new parent or its completion checkbox is clicked. They
  also build the checkbox markup itself.
- **The smiley toggle** (`$.fn.smiley`). Clicking an emoticon image swaps it
  for a span holding its text, and clicking the span swaps it back.

Modules, one per concern:

| file | module | models |
|---|---|---|
| `wrappers.dfy` | `Wrappers` | `Option` and `Result` |
| `decimal.dfy` | `Decimal` | how JavaScript prints an integer, and reading the digits back |
| `clock.dfy` | `Clock` | `formatTime` and its inverse |
| `hours.dfy` | `Hours` | `formatHours`: `Math.round` to hundredths, then `toFixed(2)` |
| `timers.dfy` | `Timers` | `updateActiveTimers` |
| `thingy.dfy` | `ThingyButton` | the label whitelist and button relabelling |
| `tasks.dfy` | `Tasks` | drop and checkbox request payloads |
| `emoticon.dfy` | `Emoticon` | the smiley toggle |

The refresh reads the browser in several places, and each read becomes an explicit input:

- The current instant is an `Instant`: epoch milliseconds plus the local wall-clock
  `TimeOfDay` of that same instant.
- Entry timestamps are integer milliseconds.
- Durations are exact `real` numbers.
- The values that would be written into the page are returned as records of strings.

Two facts about the code that the model keeps:

- **Malformed input.** No attribute is validated, so an unparseable one
  yields NaN in the page. The model has no such check either: its inputs are
  numbers by type.
- **Rounding.** `Math.round` rounds halves towards positive infinity (−2.5
  becomes −2), and `RoundHundredths` does the same.

## Model

| member | source | states |
|---|---|---|
| Decimal.NatToString | share/web/static/js/journal.js:5-6 | An integer prints as a non-empty digit string with no leading zero. It has one digit exactly below 10 and two digits from 10 to 99. |
| Decimal.DigitsValueOfNatToString | share/web/static/js/journal.js:5-6 | Reading a printed integer back gives the integer. |
| Decimal.NatToStringOfDigitsValue | share/web/static/js/journal.js:5-6 | Every digit string without a leading zero is the printing of its own value. |
| Clock.DisplayHour | share/web/static/js/journal.js:5 | The displayed hour is in 1..12 and agrees with the hour modulo 12. It is 12 exactly when the hour is 0 or 12. |
| Clock.MinuteField | share/web/static/js/journal.js:6 | The minute field is exactly two digits and reads back as the minute. It starts with `0` exactly below ten. |
| Clock.FormatTime | share/web/static/js/journal.js:4-8 | The text is 7 or 8 characters: the display hour without a leading zero, `:`, the two-digit minute, then a suffix. The suffix is ` PM` iff the hour is at least 12 and ` AM` iff it is below 12. |
| Clock.ParseFormatTime | share/web/static/js/journal.js:4-8 | Parsing the 12-hour text gives back the 24-hour time, so different times never render alike. |
| Clock.FormatParseTime | share/web/static/js/journal.js:4-8 | Every string of the `h:mm AM/PM` shape is the rendering of exactly the time it parses to. |
| Clock.FormatMidnight | share/web/static/js/journal.js:4-8 | 00:00 renders as `12:00 AM`. |
| Clock.FormatEarlyAfternoon | share/web/static/js/journal.js:4-8 | 13:05 renders as `1:05 PM`. |
| Hours.RoundHundredths | share/web/static/js/journal.js:11 | `Math.round(x*100)` is the whole number of hundredths within half a hundredth of x, with halves going up. |
| Hours.TwoDigits | share/web/static/js/journal.js:11 | The decimals of `toFixed(2)` are exactly two digits that read back as the value. |
| Hours.FormatHundredths | share/web/static/js/journal.js:11 | `toFixed(2)` of n/100 has a point followed by two decimals. It starts with `-` exactly when n is negative. |
| Hours.ParseFormatHundredths | share/web/static/js/journal.js:11 | The text reads back as exactly the count of hundredths it was made from. |
| Hours.FormatHoursRounds | share/web/static/js/journal.js:10-12 | The text `FormatHours` (`formatHours`) writes reads back as a value within half a hundredth of the duration. |
| Hours.FormatNoHours | share/web/static/js/journal.js:10-12 | A zero duration reads `0.00`. |
| Timers.RunningSumAppend | share/web/static/js/journal.js:17-45 | The running entries' sum over two groups is the sum of the groups' sums. |
| Timers.StoppedSumAppend | share/web/static/js/journal.js:47-51 | The stopped entries' sum over two groups is the sum of the groups' sums. |
| Timers.DayTotalAppend | share/web/static/js/journal.js:15-51 | The day total is additive over groups of entries, so no entry is lost or counted twice. |
| Timers.RunningEntryCountedOnce | share/web/static/js/journal.js:28-39 | Each running entry adds exactly its contribution to the day total. A live entry adds (now − start)/3600000 and any other adds its elapsed duration. |
| Timers.StoppedEntryCountedOnce | share/web/static/js/journal.js:47-51 | Each stopped entry adds exactly its elapsed duration to the day total. |
| Timers.TotalsTrackTheClock | share/web/static/js/journal.js:28-43 | Between two ticks an entry's total grows by exactly the wall time that passed, live or not. A live entry's contribution grows the same way, and a non-live one stays fixed. |
| Timers.ViewOf | share/web/static/js/journal.js:28-43 | Only live entries get elapsed and timestamp texts; every running entry gets a total. |
| Timers.ViewReadsBack | share/web/static/js/journal.js:28-43 | A running entry's total text reads back within half a hundredth of its load-time total plus the hours since the page loaded. A live entry's elapsed text reads back within half a hundredth of the hours since it started, and its stamp reads back as the current wall-clock time. |
| Timers.Remaining | share/web/static/js/journal.js:59 | Remaining hours are max(0, 8 − total). They are 0 iff the total is at least 8, and in [0, 8] for a non-negative total. |
| Timers.SplitHoursMinutes | share/web/static/js/journal.js:60-61 | Whole hours and whole minutes of the fraction together give the whole minutes of the remaining time. The minute part lies in 0..59. |
| Timers.QuittingTime | share/web/static/js/journal.js:60-78 | After the minute carry and the clamp, the result is a valid time no earlier than now. If now plus the whole remaining minutes reaches midnight, the result is exactly 23:59; otherwise it is that minute of the day. |
| Timers.QuittingDisplay | share/web/static/js/journal.js:80-85 | The quitting text is `-:--` iff nothing remains. Otherwise it reads back as the projected quitting time. |
| Timers.Summarize | share/web/static/js/journal.js:53-88 | From the accumulated day total it renders the summary. The quitting text is `-:--` exactly when the total reaches 8 hours, and the remaining text is never negative. |
| Timers.SummaryReadsBack | share/web/static/js/journal.js:53-88 | The summary's total text reads back within half a hundredth of the day total, and its remaining text within half a hundredth of the hours still to go. On a day short of 8 hours the quitting text reads back as exactly the clamped quitting time those hours lead to. |
| Timers.UpdateActiveTimers | share/web/static/js/journal.js:14-51 | The entry walk visits the running entries and then the stopped ones, in document order. It writes each running entry exactly its view, and its accumulated total equals the day total over all entries (the loop invariants carry both). |
| Timers.QuittingAfternoonExample | share/web/static/js/journal.js:59-85 | A 3.75-hour day leaves 4.25 hours. At 14:00 that projects to 18:15, shown as `6:15 PM`. |
| Timers.QuittingClampExample | share/web/static/js/journal.js:72-75 | Eight hours remaining at 20:00 are clamped to `11:59 PM`. |
| ThingyButton.MatchLabel | share/web/static/js/journal.js:94 | A response is accepted iff it is exactly one of Post, Start, Restart, Comment, Taskinate. The accepted label's text is the response. |
| ThingyButton.LowerLeavesNoCapitals | share/web/static/js/journal.js:97 | No capital letter survives lower-casing. Text is left unchanged exactly when it has no capital, so lower-casing is idempotent. |
| ThingyButton.VariantClassText | share/web/static/js/journal.js:97 | Each label yields its own `v-` class: `v-post`, `v-start`, `v-restart`, `v-comment` or `v-taskinate`. |
| ThingyButton.VariantClassOfLabel | share/web/static/js/journal.js:96-97 | The class `VariantClass` builds as `'v-' + data.toLowerCase()` for every label is one of the five removed ones, and different labels give different classes. |
| ThingyButton.OnThingyResponse | share/web/static/js/journal.js:93-100 | A response outside the whitelist leaves the button unchanged. An accepted response becomes the button's value, and afterwards the button carries exactly one of the five variant classes, `'v-' + lowercase(response)`. Its other classes are kept. |
| ThingyButton.LatestResponseWins | share/web/static/js/journal.js:94-98 | After an accepted response, the button's state does not depend on any earlier response. |
| Tasks.Substr | share/web/static/js/tasks.js:13-17 | `substr(n)` is the text after the first n characters, or empty when there are no more. |
| Tasks.SubstrAfterPrefix | share/web/static/js/tasks.js:13-17 | Dropping 5 (or 7) characters from a 5- (or 7-) character prefix followed by x gives x. |
| Tasks.TaskIdOfKey | share/web/static/js/tasks.js:23-25 | A moniker names a task iff it starts with `update-task-`. The id read from it rebuilds the moniker. |
| Tasks.TaskIdOfUpdateTaskKey | share/web/static/js/tasks.js:23-25 | `'update-task-' + id` reads back as id, so distinct tasks get distinct monikers. |
| Tasks.DropParent | share/web/static/js/tasks.js:5-10 | A drop on a `.subject` always yields its parent `.task` (never the target itself), and fails when that parent is missing or not a `.task`. Any other drop target is the parent itself. |
| Tasks.DropRequest | share/web/static/js/tasks.js:4-47 | The drop fails exactly on the TypeErrors, and with the first one the handler hits: no enclosing task, then the parent outside a region, then the child outside a region. On success it builds one action on `'update-task-' + childId` set to 1, whose only argument is `parent = parentId`. It also builds three Replace refreshes of `project/list_tasks`: parent region + `-children_of_` + parentId, the child's region, and `task_list-list_tasks`, none of them with an `args` object. Ids have 5 characters stripped and regions 7. |
| Tasks.ParseCheckboxMarkup | share/web/static/js/tasks.js:86-94 | The checkbox markup `CheckboxMarkup` builds carries the task id and reads as `checked` exactly when the task is done. Otherwise the literal text `undefined` stands in that position. |
| Tasks.WireTask | share/web/static/js/tasks.js:50-94 | A task is made draggable iff it lacks `none-project`, and gets a checkbox in exactly the same case. The checkbox is for its id minus 5 characters and is ticked iff the task has `done`. |
| Tasks.StatusRequest | share/web/static/js/tasks.js:95-117 | The click sends one action on `'update-task-' + taskId`, whose only argument is status `done` iff the box is checked, else `open`. It refreshes only `task_list-list_tasks`. |
| Tasks.SameMonikerForTask | share/web/static/js/tasks.js:95-102 | The checkbox request and a drop of the same task act on the same moniker. |
| Emoticon.Smiley | share/web/static/js/emoticon.js:2-20 | Binding keeps the selection's length. It binds the toggle to every span and image without changing their content, and leaves other elements untouched. |
| Emoticon.Click | share/web/static/js/emoticon.js:3-17 | An unbound element, or an element that is neither an image nor a span, is unchanged by a click. A bound image becomes a bound `span.smiley` with text = title and the same src. A bound span becomes a bound `img.smiley` with title = text and the same src. |
| Emoticon.ClickTwiceRestoresFace | share/web/static/js/emoticon.js:4-16 | Two clicks restore the tag, src and title/text. |
| Emoticon.ClickInvolution | share/web/static/js/emoticon.js:4-16 | On bound elements whose only class is `smiley`, clicking twice is the identity. |
| Emoticon.Ready | share/web/static/js/emoticon.js:22-24 | On page load, exactly the spans and images with class `smiley` (or already bound) end up bound. Binding keeps every span's and image's tag, `src`, title or text, and classes. Everything else is untouched. |
| Emoticon.ReadyIsSmileyOnSelection | share/web/static/js/emoticon.js:22-24 | Each `.smiley` element ends up exactly as `.smiley()` leaves it, and every other element is kept. |

## Left out

- Hours.FormatHoursRounds: the rounding is exact real arithmetic. The browser computes `duration * 100` in IEEE-754 doubles, so a value such as 1.005 can land below the half and print `1.00`, where the model prints `1.01`.
- Hours.FormatHundredths: `toFixed` switches to exponential notation from 10^21 on; that range of hours is not modelled.
- Timestamp and duration parsing (`Date.parse`, `parseFloat`) and the NaN that unparseable attributes produce: entries arrive already parsed.
- The separate `new Date()` reads inside one refresh are taken as one instant. The wall-clock reading of that instant is an input, because it depends on the time zone.
- Timers.QuittingTime: the remaining hours are exact reals. The browser computes `(to_go_hours - hours) * 60` at journal.js:61 in IEEE-754 doubles, and the result can land just below a whole minute. For a day total of 3.7, `8.0 − 3.7 − 4` is 0.29999999999999982 in doubles; times 60 that is 17.99999999999999, so the page counts 17 minutes where the model counts 18. At 14:00 the page would show 6:17 PM and the model 6:18 PM. Day totals of 0.7 (17.99999999999999) and 5.9 (5.999999999999979) diverge in the same way.
- Timers.Summarize: the day total is added up in exact reals. The page adds it up in IEEE-754 doubles (journal.js:30, 38 and 50) and compares what is left of the 8 hours with 0 (journal.js:59 and 80). Stopped entries of 0.1, 4.1 and 3.8 hours add up to 7.999999999999999 in doubles, which leaves 8.9e-16 hours to go. The page then shows the current time as the quitting time, where the model's total is exactly 8 and its summary shows `-:--`. The model also renders a single day summary, where the page writes the same one into every `.day-summary` element, or nowhere when there is none.
- `setInterval`, the `Behaviour.register` wiring, textarea autogrow and focus, mouseover link visibility and `handleEnter`: UI event plumbing. `handleEnter` depends on the side effects of `Jifty.Form.Element.clickDefaultButton`, which is not part of this model.
- The `jQuery.get` round trip to `/journal/thingy_button`: only the callback's decision on the response string is modelled.
- ThingyButton.Lower: lower-cases ASCII letters only; it is only ever applied to the five accepted labels.
- `Jifty.update` itself, and the draggable/droppable options (handle, revert, accept selectors, hover classes): foreign library calls. Only the parameters they receive are modelled.
- Elements without an `id` attribute, for which jQuery returns `undefined`: every task element is taken to carry an id string.
- Tasks.WireTask: assumes the `.subject` element is a direct child of its `.task`, as the checkbox behaviour's `subject.parent()` presumes.
- Locating the new checkbox with the selector `"#task-checkbox-" + taskId`: selector syntax is not modelled.
- Emoticon.Click: whether a handler is bound is a flag. Binding the same element twice (two handlers firing on one click) is not modelled.
- `Other` elements tagged `img` or `span`: the type does not rule them out, but such elements are always written with `Img` and `Span`, so `Other` only stands for the remaining tags.
- Missing `title`/`src` attributes on smileys (jQuery's `undefined`): attributes are strings.
- `share/web/static/js/help.js`: its show/hide sequencing happens in asynchronous `fadeOut` animation callbacks.
- `root/static/script/journal.js`: only hover and keyboard wiring.

=== FILE: clock.dfy ===
/** Wall-clock times of day and their 12-hour rendering `h:mm AM/PM`
    (`Qublog.Journal.formatTime`). */
module Clock {
  import opened Wrappers
  import opened Decimal

  /** A time of day as `Date.getHours()` / `Date.getMinutes()` report it. */
  datatype TimeOfDay = TimeOfDay(hour: int, minute: int) {
    predicate Valid() {
      0 <= hour < 24 && 0 <= minute < 60
    }

    /** Minutes elapsed since midnight. */
    function MinutesOfDay(): int {
      hour * 60 + minute
    }
  }

  const LastMinute: TimeOfDay := TimeOfDay(23, 59)

  /** The hour shown on a 12-hour clock: `hour % 12 || 12`. */
  function DisplayHour(hour: nat): (h: nat)
    ensures 1 <= h <= 12
    ensures h % 12 == hour % 12
    ensures h == 12 <==> hour % 12 == 0
  {
    if hour % 12 == 0 then 12 else hour % 12
  }

  /** The minute field: a leading `0` below ten, then the numeral. */
  function MinuteField(minute: nat): (s: string)
    requires minute < 60
    ensures |s| == 2 && AllDigits(s)
    ensures DigitsValue(s) == minute
    ensures s[0] == '0' <==> minute < 10
  {
    var digits := NatToString(minute);
    DigitsValueOfNatToString(minute);
    if minute < 10 then
      assert ['0'] + digits == ['0', digits[0]];
      assert DigitsValue(['0']) == 0 by { assert ['0'][..0] == []; }
      assert (['0'] + digits)[..1] == ['0'];
      ['0'] + digits
    else
      digits
  }

  function Suffix(hour: int): string {
    if hour >= 12 then " PM" else " AM"
  }

  /** `formatTime`: the 12-hour hour without leading zero, a colon, the
      two-digit minute, and ` PM` from noon on, ` AM` before. */
  function FormatTime(t: TimeOfDay): (r: string)
    requires t.Valid()
    ensures 7 <= |r| <= 8
    ensures r[|r| - 6] == ':'
    ensures Canonical(r[..|r| - 6]) && DigitsValue(r[..|r| - 6]) == DisplayHour(t.hour)
    ensures AllDigits(r[|r| - 5..|r| - 3]) && DigitsValue(r[|r| - 5..|r| - 3]) == t.minute
    ensures r[|r| - 5] == '0' <==> t.minute < 10
    ensures r[|r| - 3..] == " PM" <==> t.hour >= 12
    ensures r[|r| - 3..] == " AM" <==> t.hour < 12
    ensures IsDigit(r[0])
  {
    var hourText := NatToString(DisplayHour(t.hour));
    var minuteText := MinuteField(t.minute);
    DigitsValueOfNatToString(DisplayHour(t.hour));
    var r := hourText + ":" + minuteText + Suffix(t.hour);
    assert r[..|r| - 6] == hourText;
    assert r[|r| - 5..|r| - 3] == minuteText;
    assert r[|r| - 3..] == Suffix(t.hour);
    r
  }

  /** Reads a rendering of the shape `FormatTime` produces back into a
      24-hour time of day. */
  function ParseTime(s: string): Option<TimeOfDay> {
    if |s| < 7 || |s| > 8 || s[|s| - 6] != ':' then None
    else
      var hourText := s[..|s| - 6];
      var minuteText := s[|s| - 5..|s| - 3];
      var suffix := s[|s| - 3..];
      if suffix != " AM" && suffix != " PM" then None
      else if !Canonical(hourText) || !AllDigits(minuteText) then None
      else
        var h := DigitsValue(hourText);
        var m := DigitsValue(minuteText);
        if h < 1 || h > 12 || m >= 60 then None
        else Some(TimeOfDay(h % 12 + (if suffix == " PM" then 12 else 0), m))
  }

  /** Distinct times of day are rendered distinctly: parsing undoes formatting. */
  lemma ParseFormatTime(t: TimeOfDay)
    requires t.Valid()
    ensures ParseTime(FormatTime(t)) == Some(t)
  {
  }

  /** Every string `ParseTime` accepts is exactly the rendering of its result. */
  lemma FormatParseTime(s: string)
    requires ParseTime(s).Some?
    ensures ParseTime(s).value.Valid() && FormatTime(ParseTime(s).value) == s
  {
    var t := ParseTime(s).value;
    var hourText := s[..|s| - 6];
    var minuteText := s[|s| - 5..|s| - 3];
    var h := DigitsValue(hourText);
    NatToStringOfDigitsValue(hourText);
    assert DisplayHour(t.hour) == h;
    assert MinuteField(t.minute) == minuteText by {
      if t.minute < 10 {
        DigitsValueBound(minuteText);
        assert minuteText[0] == '0' by {
          if minuteText[0] != '0' { DigitsValueBound(minuteText); }
        }
        var low := minuteText[1..];
        assert minuteText[..1] == ['0'];
        assert minuteText == ['0'] + low;
        assert DigitsValue(minuteText) == DigitsValue(low) by {
          assert minuteText[..|minuteText| - 1] == ['0'];
          assert ['0'][..0] == [];
          assert low[..0] == [];
        }
        NatToStringOfDigitsValue(low);
      } else {
        DigitsValueBound(minuteText);
        assert DigitsValue(minuteText) == DigitValue(minuteText[0]) * 10 + DigitValue(minuteText[1]) by {
          assert minuteText[..1][..0] == [];
        }
        NatToStringOfDigitsValue(minuteText);
      }
    }
    var r := FormatTime(t);
    assert s == hourText + ":" + minuteText + s[|s| - 3..];
    assert r == NatToString(DisplayHour(t.hour)) + ":" + MinuteField(t.minute) + Suffix(t.hour);
  }

  /** Midnight reads `12:00 AM`. */
  lemma FormatMidnight()
    ensures FormatTime(TimeOfDay(0, 0)) == "12:00 AM"
  {
  }

  /** Five past one in the afternoon reads `1:05 PM`. */
  lemma FormatEarlyAfternoon()
    ensures FormatTime(TimeOfDay(13, 5)) == "1:05 PM"
  {
  }
}

=== FILE: decimal.dfy ===
/** Decimal rendering of non-negative integers, as JavaScript's string
    concatenation `'' + n` produces it for an integral number, together with
    the reading back of a digit string. */
module Decimal {

  predicate IsDigit(c: char) {
    '0' <= c <= '9'
  }

  predicate AllDigits(s: string) {
    forall i :: 0 <= i < |s| ==> IsDigit(s[i])
  }

  /** A digit string as JavaScript prints an integer: no sign, no leading zero. */
  predicate Canonical(s: string) {
    |s| >= 1 && AllDigits(s) && (|s| > 1 ==> s[0] != '0')
  }

  function DigitChar(d: nat): (c: char)
    requires d < 10
    ensures IsDigit(c)
    ensures c as int - '0' as int == d
  {
    ('0' as int + d) as char
  }

  function DigitValue(c: char): (d: nat)
    requires IsDigit(c)
    ensures d < 10
    ensures DigitChar(d) == c
  {
    c as int - '0' as int
  }

  /** The decimal numeral of `n`. */
  function NatToString(n: nat): (s: string)
    ensures Canonical(s)
    ensures |s| == 1 <==> n < 10
    ensures 10 <= n < 100 ==> |s| == 2
    ensures s[0] == '0' <==> n == 0
    decreases n
  {
    if n < 10 then [DigitChar(n)] else NatToString(n / 10) + [DigitChar(n % 10)]
  }

  /** The value of a digit string, most significant digit first. */
  function DigitsValue(s: string): nat
    requires AllDigits(s)
  {
    if |s| == 0 then 0 else DigitsValue(s[..|s| - 1]) * 10 + DigitValue(s[|s| - 1])
  }

  /** Reading a numeral back yields the number it was printed from. */
  lemma {:induction false} DigitsValueOfNatToString(n: nat)
    ensures DigitsValue(NatToString(n)) == n
    decreases n
  {
    if n >= 10 {
      var s := NatToString(n);
      var init := NatToString(n / 10);
      assert s == init + [DigitChar(n % 10)];
      assert s[..|s| - 1] == init;
      DigitsValueOfNatToString(n / 10);
    }
  }

  lemma {:induction false} DigitsValueBound(s: string)
    requires AllDigits(s)
    ensures |s| >= 1 && s[0] != '0' ==> DigitsValue(s) > 0
    ensures |s| >= 2 && s[0] != '0' ==> DigitsValue(s) >= 10
    ensures |s| <= 2 ==> DigitsValue(s) < 100
    ensures |s| <= 1 ==> DigitsValue(s) < 10
  {
    if |s| >= 2 {
      var init := s[..|s| - 1];
      assert init[0] == s[0];
      DigitsValueBound(init);
    } else if |s| == 1 {
      assert s[..0] == [];
    }
  }

  /** A canonical numeral is the printing of its own value: printing is
      onto the canonical numerals and reading is its inverse on them. */
  lemma {:induction false} NatToStringOfDigitsValue(s: string)
    requires Canonical(s)
    ensures NatToString(DigitsValue(s)) == s
    decreases |s|
  {
    var init := s[..|s| - 1];
    var last := DigitValue(s[|s| - 1]);
    if |s| == 1 {
      assert init == [];
      assert DigitsValue(s) == last;
    } else {
      assert init[0] == s[0];
      DigitsValueBound(init);
      NatToStringOfDigitsValue(init);
      var n := DigitsValue(s);
      assert n == DigitsValue(init) * 10 + last;
      assert n / 10 == DigitsValue(init) && n % 10 == last;
      assert s == init + [s[|s| - 1]];
    }
  }
}

=== FILE: emoticon.dfy ===
/** The smiley toggle of `$.fn.smiley`: clicking an emoticon image swaps it
    for a span holding its text, and clicking that span swaps it back. */
module Emoticon {

  const SmileyClass: string := "smiley"

  /** An element of a smiley selection. `handler` is whether the toggle's
      click handler is bound to it. A span carries `src` as a plain
      attribute; its `text` is the emoticon's source text, which an image
      keeps in its `title`. `Other` stands for any element whose tag is
      neither `img` nor `span`; those two tags always use their own
      constructors. */
  datatype Element =
    | Img(classes: set<string>, src: string, title: string, handler: bool)
    | Span(classes: set<string>, src: string, text: string, handler: bool)
    | Other(tag: string, classes: set<string>)

  /** What the toggle carries across: the tag, the `src`, and the emoticon
      text (an image's title, a span's text). */
  datatype Face = Face(isImage: bool, src: string, caption: string)

  function FaceOf(e: Element): Face
    requires !e.Other?
  {
    match e
    case Img(_, src, title, _) => Face(true, src, title)
    case Span(_, src, text, _) => Face(false, src, text)
  }

  /** `.smiley()` on a selection: binds the toggle to its spans and images
      and leaves every other element untouched. */
  function Smiley(selection: seq<Element>): (r: seq<Element>)
    ensures |r| == |selection|
    ensures forall i :: 0 <= i < |r| ==> (r[i].Other? <==> selection[i].Other?)
    ensures forall i :: 0 <= i < |r| && selection[i].Other? ==> r[i] == selection[i]
    ensures forall i :: 0 <= i < |r| && !selection[i].Other? ==>
              r[i].handler && FaceOf(r[i]) == FaceOf(selection[i]) && r[i].classes == selection[i].classes
  {
    seq(|selection|, i requires 0 <= i < |selection| =>
      if selection[i].Other? then selection[i] else selection[i].(handler := true))
  }

  /** A click on one element. Without a bound handler nothing happens; an
      image becomes a fresh `span.smiley` with the image's title as text,
      a span becomes a fresh `img.smiley` titled with the span's text, and
      the replacement is bound to the toggle in turn. */
  function Click(e: Element): (r: Element)
    ensures e.Other? || !e.handler ==> r == e
    ensures !e.Other? && e.handler ==>
              && !r.Other? && r.handler
              && r.classes == {SmileyClass}
              && FaceOf(r) == Face(!FaceOf(e).isImage, FaceOf(e).src, FaceOf(e).caption)
  {
    match e
    case Other(_, _) => e
    case Img(_, src, title, handler) =>
      if handler then Span({SmileyClass}, src, title, true) else e
    case Span(_, src, text, handler) =>
      if handler then Img({SmileyClass}, src, text, true) else e
  }

  /** Clicking twice gives back the emoticon's tag, source and text. */
  lemma ClickTwiceRestoresFace(e: Element)
    requires !e.Other? && e.handler
    ensures !Click(Click(e)).Other? && FaceOf(Click(Click(e))) == FaceOf(e)
  {
  }

  /** On the toggle's own elements (bound, with just the `smiley` class)
      the click is an involution. */
  lemma ClickInvolution(e: Element)
    requires !e.Other? && e.handler && e.classes == {SmileyClass}
    ensures Click(Click(e)) == e
  {
  }

  /** The page set-up: `$('.smiley').smiley()` binds the toggle to the spans
      and images that carry the `smiley` class. */
  function Ready(page: seq<Element>): (r: seq<Element>)
    ensures |r| == |page|
    ensures forall i :: 0 <= i < |r| ==>
              (!r[i].Other? && r[i].handler <==> !page[i].Other? && (page[i].handler || SmileyClass in page[i].classes))
    ensures forall i :: 0 <= i < |r| && (page[i].Other? || SmileyClass !in page[i].classes) ==> r[i] == page[i]
    ensures forall i :: 0 <= i < |r| && !page[i].Other? ==>
              && !r[i].Other?
              && FaceOf(r[i]) == FaceOf(page[i])
              && r[i].classes == page[i].classes
  {
    seq(|page|, i requires 0 <= i < |page| =>
      if SmileyClass in page[i].classes && !page[i].Other? then page[i].(handler := true) else page[i])
  }

  /** Page set-up is `.smiley()` applied to each `.smiley` element: such an
      element ends up as the toggle binds it, and every other one is kept. */
  lemma ReadyIsSmileyOnSelection(page: seq<Element>, i: nat)
    requires i < |page|
    ensures SmileyClass in page[i].classes ==> Ready(page)[i] == Smiley([page[i]])[0]
    ensures SmileyClass !in page[i].classes ==> Ready(page)[i] == page[i]
  {
  }
}

=== FILE: hours.dfy ===
/** Decimal-hour rendering (`Qublog.Journal.formatHours`):
    `Math.round(duration * 100) / 100` followed by `toFixed(2)`, over exact
    real arithmetic. */
module Hours {
  import opened Wrappers
  import opened Decimal

  /** `Math.round(x * 100)`: the nearest whole number of hundredths, a half
      rounding towards positive infinity. */
  function RoundHundredths(x: real): (n: int)
    ensures n as real - 0.5 <= x * 100.0 < n as real + 0.5
  {
    (x * 100.0 + 0.5).Floor
  }

  /** Two digits for a value below one hundred, with a leading zero. */
  function TwoDigits(d: nat): (s: string)
    requires d < 100
    ensures |s| == 2 && AllDigits(s)
    ensures DigitsValue(s) == d
  {
    var s := [DigitChar(d / 10), DigitChar(d % 10)];
    assert s[..1][..0] == [];
    assert DigitsValue(s[..1]) == d / 10;
    assert DigitsValue(s) == (d / 10) * 10 + d % 10;
    s
  }

  function Abs(n: int): nat {
    if n < 0 then -n else n
  }

  /** `toFixed(2)` applied to `n / 100`: a minus sign for a negative value,
      the whole part, a point and exactly two decimals. */
  function FormatHundredths(n: int): (s: string)
    ensures |s| >= 4 && s[|s| - 3] == '.'
    ensures s[0] == '-' <==> n < 0
  {
    var whole := NatToString(Abs(n) / 100);
    var r := whole + "." + TwoDigits(Abs(n) % 100);
    if n < 0 then "-" + r else r
  }

  /** Reads a `FormatHundredths` rendering back into its count of hundredths. */
  function ParseHundredths(s: string): Option<int> {
    var negative := |s| > 0 && s[0] == '-';
    var body := if negative then s[1..] else s;
    if |body| < 4 || body[|body| - 3] != '.' then None
    else
      var whole := body[..|body| - 3];
      var cents := body[|body| - 2..];
      if !Canonical(whole) || !AllDigits(cents) then None
      else
        var magnitude := DigitsValue(whole) * 100 + DigitsValue(cents);
        Some(if negative then -magnitude else magnitude)
  }

  /** Parsing undoes formatting, so the text carries the exact count. */
  lemma ParseFormatHundredths(n: int)
    ensures ParseHundredths(FormatHundredths(n)) == Some(n)
  {
    var whole := NatToString(Abs(n) / 100);
    var cents := TwoDigits(Abs(n) % 100);
    var body := whole + "." + cents;
    DigitsValueOfNatToString(Abs(n) / 100);
    assert body[..|body| - 3] == whole;
    assert body[|body| - 2..] == cents;
    if n < 0 {
      assert ("-" + body)[1..] == body;
    }
  }

  /** `formatHours`: the duration to the nearest hundredth, two decimals. */
  function FormatHours(duration: real): string {
    FormatHundredths(RoundHundredths(duration))
  }

  /** The text `formatHours` writes reads back as the duration rounded to
      the nearest hundredth: it is off by at most half a hundredth. */
  lemma FormatHoursRounds(duration: real)
    ensures ReadsBack(FormatHours(duration), duration)
  {
    ParseFormatHundredths(RoundHundredths(duration));
  }

  /** `text` parses as a count of hundredths that lies within half a
      hundredth of `x`: what a reader of the page learns about `x`. */
  predicate ReadsBack(text: string, x: real)
  {
    && ParseHundredths(text).Some?
    && var n := ParseHundredths(text).value;
       n as real / 100.0 - 0.005 <= x < n as real / 100.0 + 0.005
  }

  /** No time reads `0.00`. */
  lemma FormatNoHours()
    ensures FormatHours(0.0) == "0.00"
  {
  }
}

=== FILE: tasks.dfy ===
/** Request payloads built by the project task list: re-parenting a task
    by drag and drop (`Qublog.Project.drop`) and toggling its status with
    the checkbox the `.task .subject` behaviour inserts. The requests are
    what would be handed to `Jifty.update`. */
module Tasks {
  import opened Wrappers

  /** Length of the `task-` prefix of a task element's id. */
  const IdPrefixLength: nat := 5

  /** Length of the `region-` prefix of a region element's id. */
  const RegionPrefixLength: nat := 7

  const UpdateTaskPrefix: string := "update-task-"
  const ChildrenOfInfix: string := "-children_of_"
  const ListTasksPath: string := "project/list_tasks"
  const TaskListRegion: string := "task_list-list_tasks"
  const ReplaceMode: string := "Replace"

  const SubjectClass: string := "subject"
  const TaskClass: string := "task"
  const DoneClass: string := "done"
  const NoneProjectClass: string := "none-project"

  predicate StartsWith(s: string, prefix: string) {
    |prefix| <= |s| && s[..|prefix|] == prefix
  }

  predicate EndsWith(s: string, suffix: string) {
    |suffix| <= |s| && s[|s| - |suffix|..] == suffix
  }

  /** `String.prototype.substr(start)` for a non-negative start: everything
      from `start` on, or the empty string when `start` is past the end. */
  function Substr(s: string, start: nat): (r: string)
    ensures start >= |s| ==> r == []
    ensures start <= |s| ==> s == s[..start] + r
  {
    if start >= |s| then [] else s[start..]
  }

  /** Dropping a prefix of the stripped length gives back what followed it. */
  lemma SubstrAfterPrefix(prefix: string, rest: string)
    requires |prefix| == IdPrefixLength || |prefix| == RegionPrefixLength
    ensures Substr(prefix + rest, |prefix|) == rest
  {
  }

  /** The action moniker `'update-task-' + id` both requests use. */
  function UpdateTaskKey(taskId: string): string {
    UpdateTaskPrefix + taskId
  }

  /** The task id an action moniker refers to, if it is an update-task one. */
  function TaskIdOfKey(key: string): (r: Option<string>)
    ensures r.Some? <==> StartsWith(key, UpdateTaskPrefix)
    ensures r.Some? ==> UpdateTaskKey(r.value) == key
  {
    if StartsWith(key, UpdateTaskPrefix) then Some(key[|UpdateTaskPrefix|..]) else None
  }

  /** Monikers identify their task: reading the id back gives the id the
      moniker was made from, so distinct tasks never share a moniker. */
  lemma TaskIdOfUpdateTaskKey(taskId: string)
    ensures TaskIdOfKey(UpdateTaskKey(taskId)) == Some(taskId)
  {
  }

  /** An element of the task list: its id attribute, its classes, and the id
      of its nearest enclosing `.jifty-region` element if there is one. */
  datatype Node = Node(id: string, classes: set<string>, region: Option<string>)

  /** The element a task was dropped on, with its parent element if it has one. */
  datatype DropPoint = DropPoint(node: Node, parent: Option<Node>)

  /** A page-region refresh: `emptyArgs` is whether an empty `args` object is sent. */
  datatype Fragment = Fragment(mode: string, region: string, path: string, emptyArgs: bool)

  /** The parameters of a `Jifty.update` call. `emptyContinuation` is whether
      an empty `continuation` object is sent; `arguments` maps each action
      moniker to its arguments. */
  datatype Request = Request(
    emptyContinuation: bool,
    actions: map<string, int>,
    arguments: map<string, map<string, string>>,
    fragments: seq<Fragment>)

  /** The TypeErrors the drop handler runs into, in the order it would hit them:
      a `.subject` whose parent is not a `.task`, then a parent or child
      element outside every `.jifty-region`. */
  datatype DropError = ParentNotATask | ParentOutsideRegion | ChildOutsideRegion

  function ListTasksFragment(region: string): Fragment {
    Fragment(ReplaceMode, region, ListTasksPath, false)
  }

  /** The element that becomes the new parent: a `.subject` drop target stands
      for its parent `.task`; any other target is the parent itself. */
  function DropParent(point: DropPoint): (r: Option<Node>)
    ensures SubjectClass !in point.node.classes ==> r == Some(point.node)
    ensures SubjectClass in point.node.classes ==>
              (r.Some? <==> point.parent.Some? && TaskClass in point.parent.value.classes)
    ensures SubjectClass in point.node.classes ==> r.Some? ==> r == point.parent
    ensures r.Some? ==> r.value == point.node || r == point.parent
    ensures r.Some? ==> SubjectClass !in r.value.classes || TaskClass in r.value.classes
  {
    if SubjectClass in point.node.classes then
      if point.parent.Some? && TaskClass in point.parent.value.classes then point.parent else None
    else Some(point.node)
  }

  /** The child task and new parent a re-parenting request names, read back
      from the request alone: one action, on an update-task moniker, set to
      1, whose only argument is `parent`; three list refreshes sent without
      an `args` object, the first of which is the new parent's children
      region. */
  ghost function ReparentOf(req: Request): Option<(string, string)> {
    if |req.actions| != 1 || req.actions.Keys != req.arguments.Keys then None
    else
      var key :| key in req.actions;
      var args := req.arguments[key];
      if req.actions[key] != 1 || args.Keys != {"parent"} || TaskIdOfKey(key).None? then None
      else if |req.fragments| != 3 then None
      else if exists f <- req.fragments :: f.mode != ReplaceMode || f.path != ListTasksPath || f.emptyArgs then None
      else if !EndsWith(req.fragments[0].region, ChildrenOfInfix + args["parent"]) then None
      else if req.fragments[2].region != TaskListRegion then None
      else Some((TaskIdOfKey(key).value, args["parent"]))
  }

  /** `Qublog.Project.drop`: the request that moves the dragged task under
      the drop target's task and refreshes the new parent's children, the
      child's old region and the whole task list. */
  function DropRequest(point: DropPoint, child: Node): (r: Result<Request, DropError>)
    ensures r.Failure? <==>
              DropParent(point).None? || DropParent(point).value.region.None? || child.region.None?
    ensures DropParent(point).None? ==> r == Failure(ParentNotATask)
    ensures DropParent(point).Some? && DropParent(point).value.region.None? ==>
              r == Failure(ParentOutsideRegion)
    ensures DropParent(point).Some? && DropParent(point).value.region.Some? && child.region.None? ==>
              r == Failure(ChildOutsideRegion)
    ensures r.Success? ==>
              var parent := DropParent(point).value;
              var parentId := Substr(parent.id, IdPrefixLength);
              && ReparentOf(r.value) == Some((Substr(child.id, IdPrefixLength), parentId))
              && r.value.fragments[0].region
                   == Substr(parent.region.value, RegionPrefixLength) + ChildrenOfInfix + parentId
              && r.value.fragments[1].region == Substr(child.region.value, RegionPrefixLength)
              && !r.value.emptyContinuation
  {
    match DropParent(point)
    case None => Failure(ParentNotATask)
    case Some(parent) =>
      var parentId := Substr(parent.id, IdPrefixLength);
      var childId := Substr(child.id, IdPrefixLength);
      if parent.region.None? then Failure(ParentOutsideRegion)
      else if child.region.None? then Failure(ChildOutsideRegion)
      else
        var parentRegion := Substr(parent.region.value, RegionPrefixLength);
        var childRegion := Substr(child.region.value, RegionPrefixLength);
        var key := UpdateTaskKey(childId);
        var req := Request(
          false,
          map[key := 1],
          map[key := map["parent" := parentId]],
          [ ListTasksFragment(parentRegion + ChildrenOfInfix + parentId),
            ListTasksFragment(childRegion),
            ListTasksFragment(TaskListRegion) ]);
        TaskIdOfUpdateTaskKey(childId);
        assert EndsWith(req.fragments[0].region, ChildrenOfInfix + parentId) by {
          var region := req.fragments[0].region;
          assert region == parentRegion + (ChildrenOfInfix + parentId);
          assert region[|region| - |ChildrenOfInfix + parentId|..] == ChildrenOfInfix + parentId;
        }
        Success(req)
  }

  const MarkupHead: string := "<input type=\"checkbox\" id=\"task-checkbox-"
  const MarkupMiddle: string := "\" class=\"complete-box\" "
  const MarkupEnd: string := "/>"

  /** The word placed in the checkbox markup: `checked` for a done task,
      and for any other task the text of JavaScript's unassigned variable. */
  function CheckedWord(done: bool): string {
    if done then "checked" else "undefined"
  }

  /** The checkbox prepended to a task's subject. */
  function CheckboxMarkup(taskId: string, done: bool): string {
    MarkupHead + taskId + MarkupMiddle + CheckedWord(done) + MarkupEnd
  }

  /** Reads checkbox markup back into its task id and whether it is ticked. */
  function ParseCheckbox(markup: string): Option<(string, bool)> {
    var checkedTail := MarkupMiddle + CheckedWord(true) + MarkupEnd;
    var uncheckedTail := MarkupMiddle + CheckedWord(false) + MarkupEnd;
    if !StartsWith(markup, MarkupHead) then None
    else if |markup| >= |MarkupHead| + |checkedTail| && EndsWith(markup, checkedTail) then
      Some((markup[|MarkupHead|..|markup| - |checkedTail|], true))
    else if |markup| >= |MarkupHead| + |uncheckedTail| && EndsWith(markup, uncheckedTail) then
      Some((markup[|MarkupHead|..|markup| - |uncheckedTail|], false))
    else None
  }

  /** The markup carries the task id and the done flag recoverably: in
      particular it reads as ticked exactly when the task is done. */
  lemma ParseCheckboxMarkup(taskId: string, done: bool)
    ensures ParseCheckbox(CheckboxMarkup(taskId, done)) == Some((taskId, done))
  {
    var m := CheckboxMarkup(taskId, done);
    var tail := MarkupMiddle + CheckedWord(done) + MarkupEnd;
    assert m == MarkupHead + taskId + tail;
    assert m[..|MarkupHead|] == MarkupHead;
    assert m[|m| - |tail|..] == tail;
    assert m[|MarkupHead|..|m| - |tail|] == taskId;
    if !done {
      var checkedTail := MarkupMiddle + CheckedWord(true) + MarkupEnd;
      assert m[|m| - 9] == 'd';
      assert checkedTail[|checkedTail| - 9] == 'c';
      assert m[|m| - |checkedTail|..][|checkedTail| - 9] == 'd';
      assert !EndsWith(m, checkedTail);
    }
  }

  /** What the `.task` and `.task .subject` behaviours do to one task:
      whether it is made draggable, and the checkbox markup inserted. */
  datatype TaskWiring = TaskWiring(draggable: bool, checkbox: Option<string>)

  function WireTask(task: Node): (w: TaskWiring)
    ensures w.draggable <==> NoneProjectClass !in task.classes
    ensures w.checkbox.Some? <==> w.draggable
    ensures w.checkbox.Some? ==>
              ParseCheckbox(w.checkbox.value) == Some((Substr(task.id, IdPrefixLength), DoneClass in task.classes))
  {
    if NoneProjectClass in task.classes then TaskWiring(false, None)
    else
      var taskId := Substr(task.id, IdPrefixLength);
      ParseCheckboxMarkup(taskId, DoneClass in task.classes);
      TaskWiring(true, Some(CheckboxMarkup(taskId, DoneClass in task.classes)))
  }

  /** The task and the status a status request sets, read back from the
      request alone: one action, on an update-task moniker, set to 1, whose
      only argument is a `status` of `done` or `open`, and one refresh of
      the whole task list. */
  ghost function StatusOf(req: Request): Option<(string, bool)> {
    if |req.actions| != 1 || req.actions.Keys != req.arguments.Keys then None
    else
      var key :| key in req.actions;
      var args := req.arguments[key];
      if req.actions[key] != 1 || args.Keys != {"status"} || TaskIdOfKey(key).None? then None
      else if args["status"] != "done" && args["status"] != "open" then None
      else if req.fragments != [Fragment(ReplaceMode, TaskListRegion, ListTasksPath, true)] then None
      else Some((TaskIdOfKey(key).value, args["status"] == "done"))
  }

  /** The checkbox click handler: sets the task's status to `done` when the
      box is ticked and to `open` when it is not. */
  function StatusRequest(task: Node, checked: bool): (r: Request)
    ensures StatusOf(r) == Some((Substr(task.id, IdPrefixLength), checked))
    ensures r.emptyContinuation
  {
    var taskId := Substr(task.id, IdPrefixLength);
    var key := UpdateTaskKey(taskId);
    TaskIdOfUpdateTaskKey(taskId);
    Request(
      true,
      map[key := 1],
      map[key := map["status" := if checked then "done" else "open"]],
      [Fragment(ReplaceMode, TaskListRegion, ListTasksPath, true)])
  }

  /** A task's checkbox and a drop that moves that task act on the same
      moniker, so the server sees one action per task either way. */
  lemma SameMonikerForTask(task: Node, checked: bool, point: DropPoint)
    requires DropRequest(point, task).Success?
    ensures StatusRequest(task, checked).actions.Keys == DropRequest(point, task).value.actions.Keys
  {
  }
}

=== FILE: thingy.dfy ===
/** The submit-button relabelling done by the callback of
    `Qublog.Journal.updateJournalThingyButton`: the server's answer is
    accepted only when it is one of five known labels. */
module ThingyButton {
  import opened Wrappers

  /** The labels the server may propose for the new-entry button. */
  datatype Label = Post | Start | Restart | Comment | Taskinate

  /** The response strings the callback's pattern
      `^(?:Post|Start|Restart|Comment|Taskinate)$` accepts. */
  const AcceptedResponses: set<string> := {"Post", "Start", "Restart", "Comment", "Taskinate"}

  /** The classes removed from the button before the new one is added. */
  const VariantClasses: set<string> := {"v-comment", "v-taskinate", "v-post", "v-start", "v-restart"}

  function LabelText(l: Label): string {
    match l
    case Post => "Post"
    case Start => "Start"
    case Restart => "Restart"
    case Comment => "Comment"
    case Taskinate => "Taskinate"
  }

  /** The whole-string match of the response against the five labels. */
  function MatchLabel(data: string): (r: Option<Label>)
    ensures r.Some? <==> data in AcceptedResponses
    ensures r.Some? ==> LabelText(r.value) == data
  {
    if data == "Post" then Some(Post)
    else if data == "Start" then Some(Start)
    else if data == "Restart" then Some(Restart)
    else if data == "Comment" then Some(Comment)
    else if data == "Taskinate" then Some(Taskinate)
    else None
  }

  /** `String.prototype.toLowerCase` on one character of the ASCII letters;
      other characters are left alone. */
  function LowerChar(c: char): char {
    if 'A' <= c <= 'Z' then (c as int - 'A' as int + 'a' as int) as char else c
  }

  function Lower(s: string): (r: string)
    ensures |r| == |s|
    ensures forall i :: 0 <= i < |s| ==> r[i] == LowerChar(s[i])
  {
    seq(|s|, i requires 0 <= i < |s| => LowerChar(s[i]))
  }

  /** No ASCII capital survives lower-casing, and text without one is left
      as it is; hence lower-casing twice is lower-casing once. */
  lemma LowerLeavesNoCapitals(s: string)
    ensures forall i :: 0 <= i < |Lower(s)| ==> !('A' <= Lower(s)[i] <= 'Z')
    ensures (forall i :: 0 <= i < |s| ==> !('A' <= s[i] <= 'Z')) <==> Lower(s) == s
    ensures Lower(Lower(s)) == Lower(s)
  {
  }

  /** The class `'v-' + data.toLowerCase()` the button receives. */
  function VariantClass(data: string): string {
    "v-" + Lower(data)
  }

  /** The class each label's text produces. */
  lemma VariantClassText(l: Label)
    ensures VariantClass(LabelText(l)) == match l
      case Post => "v-post"
      case Start => "v-start"
      case Restart => "v-restart"
      case Comment => "v-comment"
      case Taskinate => "v-taskinate"
  {
  }

  /** Each label gets its own one of the five classes. */
  lemma VariantClassOfLabel(l: Label, m: Label)
    ensures VariantClass(LabelText(l)) in VariantClasses
    ensures VariantClass(LabelText(l)) == VariantClass(LabelText(m)) <==> l == m
  {
    VariantClassText(l);
    VariantClassText(m);
    if l != m {
      assert VariantClass(LabelText(l))[2] != VariantClass(LabelText(m))[2];
    }
  }

  /** The `.new_comment_entry_submit` button: its class list and its value. */
  datatype Button = Button(classes: set<string>, value: string)

  /** The callback: an accepted response replaces whichever variant class
      the button had with the response's own and becomes the button's
      value; any other response leaves the button as it was. */
  function OnThingyResponse(b: Button, data: string): (r: Button)
    ensures data !in AcceptedResponses ==> r == b
    ensures data in AcceptedResponses ==> r.value == data
    ensures data in AcceptedResponses ==> r.classes * VariantClasses == {VariantClass(data)}
    ensures r.classes - VariantClasses == b.classes - VariantClasses
  {
    match MatchLabel(data)
    case None => b
    case Some(l) =>
      VariantClassOfLabel(l, l);
      Button((b.classes - VariantClasses) + {VariantClass(data)}, data)
  }

  /** Only the latest accepted response decides what the button shows. */
  lemma LatestResponseWins(b: Button, first: string, second: string)
    requires second in AcceptedResponses
    ensures OnThingyResponse(OnThingyResponse(b, first), second) == OnThingyResponse(b, second)
  {
  }
}

=== FILE: timers.dfy ===
/** The periodic refresh of running journal entries and of the day summary
    (`Qublog.Journal.updateActiveTimers`), as a pure function of the entry
    attributes and of the current instant. */
module Timers {
  import opened Wrappers
  import opened Clock
  import opened Hours

  const MsPerHour: int := 3600000

  /** The fixed daily goal the remaining time is measured against. */
  const TargetHours: real := 8.0

  /** The current instant: milliseconds since the epoch (`getTime()`) and
      the local wall-clock reading of that same instant. */
  datatype Instant = Instant(ms: int, clock: TimeOfDay)

  /** An `.entry-running` element. `live` is its `span-running` class; the
      timestamps are the parsed `load_time` and `start_time` attributes;
      `totalDuration` and `elapsedDuration` are the parsed `total_duration`
      and `elapsed_duration` attributes, in hours. */
  datatype RunningEntry = RunningEntry(
    live: bool,
    loadMs: int,
    startMs: int,
    totalDuration: real,
    elapsedDuration: real)

  /** An `.entry-stopped` element: only its `elapsed_duration` is read. */
  datatype StoppedEntry = StoppedEntry(elapsedDuration: real)

  /** What the refresh writes into one running entry: the `.elapsed .number`
      and `.timestamp .time` texts (live entries only) and the
      `.total .number` text. */
  datatype EntryView = EntryView(elapsed: Option<string>, timestamp: Option<string>, total: string)

  /** What the refresh writes into every `.day-summary` element: the
      `.total .number`, `.remaining .number` and `.quit .time` texts. */
  datatype DaySummary = DaySummary(total: string, remaining: string, quitting: string)

  function HoursBetween(fromMs: int, toMs: int): real {
    (toMs - fromMs) as real / MsPerHour as real
  }

  /** The hours a running entry adds to the day total: measured from its
      start when it is live, its recorded elapsed duration otherwise. */
  function Contribution(e: RunningEntry, nowMs: int): real {
    if e.live then HoursBetween(e.startMs, nowMs) else e.elapsedDuration
  }

  /** The running total shown for an entry: its total at load time plus the
      hours since the page was loaded, live or not. */
  function RunningTotal(e: RunningEntry, nowMs: int): real {
    e.totalDuration + HoursBetween(e.loadMs, nowMs)
  }

  /** Sum of the contributions of running entries, accumulated in document order. */
  function RunningSum(es: seq<RunningEntry>, nowMs: int): real {
    if |es| == 0 then 0.0 else RunningSum(es[..|es| - 1], nowMs) + Contribution(es[|es| - 1], nowMs)
  }

  /** Sum of the elapsed durations of stopped entries, in document order. */
  function StoppedSum(es: seq<StoppedEntry>): real {
    if |es| == 0 then 0.0 else StoppedSum(es[..|es| - 1]) + es[|es| - 1].elapsedDuration
  }

  /** The day total: every running entry, then every stopped entry. */
  function DayTotal(running: seq<RunningEntry>, stopped: seq<StoppedEntry>, nowMs: int): real {
    RunningSum(running, nowMs) + StoppedSum(stopped)
  }

  lemma {:induction false} RunningSumAppend(a: seq<RunningEntry>, b: seq<RunningEntry>, nowMs: int)
    ensures RunningSum(a + b, nowMs) == RunningSum(a, nowMs) + RunningSum(b, nowMs)
    decreases |b|
  {
    if |b| == 0 {
      assert a + b == a;
    } else {
      var init := b[..|b| - 1];
      assert (a + b)[..|a + b| - 1] == a + init;
      assert (a + b)[|a + b| - 1] == b[|b| - 1];
      RunningSumAppend(a, init, nowMs);
    }
  }

  lemma {:induction false} StoppedSumAppend(a: seq<StoppedEntry>, b: seq<StoppedEntry>)
    ensures StoppedSum(a + b) == StoppedSum(a) + StoppedSum(b)
    decreases |b|
  {
    if |b| == 0 {
      assert a + b == a;
    } else {
      var init := b[..|b| - 1];
      assert (a + b)[..|a + b| - 1] == a + init;
      assert (a + b)[|a + b| - 1] == b[|b| - 1];
      StoppedSumAppend(a, init);
    }
  }

  /** The day total of two groups of entries is the sum of their day totals:
      no entry is dropped and none is counted twice. */
  lemma DayTotalAppend(r1: seq<RunningEntry>, r2: seq<RunningEntry>,
                       s1: seq<StoppedEntry>, s2: seq<StoppedEntry>, nowMs: int)
    ensures DayTotal(r1 + r2, s1 + s2, nowMs) == DayTotal(r1, s1, nowMs) + DayTotal(r2, s2, nowMs)
  {
    RunningSumAppend(r1, r2, nowMs);
    StoppedSumAppend(s1, s2);
  }

  /** Each running entry contributes exactly once, at its own position. */
  lemma RunningEntryCountedOnce(running: seq<RunningEntry>, stopped: seq<StoppedEntry>, i: int, nowMs: int)
    requires 0 <= i < |running|
    ensures DayTotal(running, stopped, nowMs)
         == DayTotal(running[..i] + running[i + 1..], stopped, nowMs) + Contribution(running[i], nowMs)
  {
    assert running == running[..i] + [running[i]] + running[i + 1..];
    RunningSumAppend(running[..i] + [running[i]], running[i + 1..], nowMs);
    RunningSumAppend(running[..i], [running[i]], nowMs);
    RunningSumAppend(running[..i], running[i + 1..], nowMs);
    assert [running[i]][..0] == [];
  }

  /** Each stopped entry contributes its elapsed duration exactly once. */
  lemma StoppedEntryCountedOnce(running: seq<RunningEntry>, stopped: seq<StoppedEntry>, i: int, nowMs: int)
    requires 0 <= i < |stopped|
    ensures DayTotal(running, stopped, nowMs)
         == DayTotal(running, stopped[..i] + stopped[i + 1..], nowMs) + stopped[i].elapsedDuration
  {
    assert stopped == stopped[..i] + [stopped[i]] + stopped[i + 1..];
    StoppedSumAppend(stopped[..i] + [stopped[i]], stopped[i + 1..]);
    StoppedSumAppend(stopped[..i], [stopped[i]]);
    StoppedSumAppend(stopped[..i], stopped[i + 1..]);
    assert [stopped[i]][..0] == [];
  }

  /** Between two refreshes an entry's total advances by exactly the wall
      time that passed, and so does a live entry's contribution; a non-live
      entry's contribution stays put. */
  lemma TotalsTrackTheClock(e: RunningEntry, t1: int, t2: int)
    ensures RunningTotal(e, t2) - RunningTotal(e, t1) == HoursBetween(t1, t2)
    ensures e.live ==> Contribution(e, t2) - Contribution(e, t1) == HoursBetween(t1, t2)
    ensures !e.live ==> Contribution(e, t2) == Contribution(e, t1)
  {
  }

  /** The view written into one running entry. */
  function ViewOf(e: RunningEntry, now: Instant): (v: EntryView)
    requires now.clock.Valid()
    ensures v.elapsed.Some? <==> e.live
    ensures v.timestamp.Some? <==> e.live
    ensures e.live ==> v.elapsed == Some(FormatHours(HoursBetween(e.startMs, now.ms)))
    ensures e.live ==> v.timestamp == Some(FormatTime(now.clock))
    ensures v.total == FormatHours(e.totalDuration + HoursBetween(e.loadMs, now.ms))
  {
    EntryView(
      if e.live then Some(FormatHours(Contribution(e, now.ms))) else None,
      if e.live then Some(FormatTime(now.clock)) else None,
      FormatHours(RunningTotal(e, now.ms)))
  }

  /** What the texts of one running entry tell a reader: the total and,
      while live, the elapsed hours read back to within half a hundredth,
      and the stamp reads back as the wall-clock time of the tick. */
  lemma ViewReadsBack(e: RunningEntry, now: Instant)
    requires now.clock.Valid()
    ensures ReadsBack(ViewOf(e, now).total, RunningTotal(e, now.ms))
    ensures e.live ==> ReadsBack(ViewOf(e, now).elapsed.value, HoursBetween(e.startMs, now.ms))
    ensures e.live ==> ParseTime(ViewOf(e, now).timestamp.value) == Some(now.clock)
  {
    FormatHoursRounds(RunningTotal(e, now.ms));
    if e.live {
      FormatHoursRounds(HoursBetween(e.startMs, now.ms));
      ParseFormatTime(now.clock);
    }
  }

  /** `Math.max(0, 8.0 - total)`. */
  function Remaining(dayTotal: real): (r: real)
    ensures r >= 0.0 && r >= TargetHours - dayTotal
    ensures r == 0.0 || r == TargetHours - dayTotal
    ensures r == 0.0 <==> dayTotal >= TargetHours
    ensures dayTotal >= 0.0 ==> r <= TargetHours
  {
    if TargetHours - dayTotal > 0.0 then TargetHours - dayTotal else 0.0
  }

  /** The remaining time in whole minutes, rounded down. */
  function WholeMinutes(remaining: real): int {
    (remaining * 60.0).Floor
  }

  /** Splitting the remaining time into whole hours and the whole minutes of
      the fraction loses nothing beyond the seconds: the minutes part lies in
      0..59 and both parts together are the whole minutes. */
  lemma SplitHoursMinutes(remaining: real)
    requires remaining >= 0.0
    ensures var hours := remaining.Floor;
            var minutes := ((remaining - hours as real) * 60.0).Floor;
            && hours >= 0
            && 0 <= minutes < 60
            && hours * 60 + minutes == WholeMinutes(remaining)
  {
  }

  /** The projected quitting time: whole hours and whole minutes of the
      remaining time are added to now, a minute overflow is carried into
      the hour, and anything past midnight is clamped to 23:59. */
  function QuittingTime(now: TimeOfDay, remaining: real): (q: TimeOfDay)
    requires now.Valid() && remaining >= 0.0
    ensures q.Valid()
    ensures q.MinutesOfDay() >= now.MinutesOfDay()
    ensures now.MinutesOfDay() + WholeMinutes(remaining) >= 24 * 60 ==> q == LastMinute
    ensures now.MinutesOfDay() + WholeMinutes(remaining) < 24 * 60 ==>
              q.MinutesOfDay() == now.MinutesOfDay() + WholeMinutes(remaining)
  {
    SplitHoursMinutes(remaining);
    var hours := remaining.Floor;
    var minutes := ((remaining - hours as real) * 60.0).Floor;
    var hour := now.hour + hours;
    var minute := now.minute + minutes;
    var carriedHour := if minute >= 60 then hour + 1 else hour;
    var carriedMinute := if minute >= 60 then minute % 60 else minute;
    if carriedHour >= 24 then LastMinute else TimeOfDay(carriedHour, carriedMinute)
  }

  const NoQuittingTime: string := "-:--"

  /** The `.quit .time` text: `-:--` once the target is met, otherwise the
      projected quitting time on the 12-hour clock. */
  function QuittingDisplay(now: TimeOfDay, remaining: real): (s: string)
    requires now.Valid() && remaining >= 0.0
    ensures s == NoQuittingTime <==> remaining == 0.0
    ensures remaining != 0.0 ==> ParseTime(s) == Some(QuittingTime(now, remaining))
  {
    if remaining == 0.0 then NoQuittingTime
    else
      var q := QuittingTime(now, remaining);
      ParseFormatTime(q);
      FormatTime(q)
  }

  /** The three texts of the day summary for a given day total. */
  function Summarize(dayTotal: real, now: TimeOfDay): (s: DaySummary)
    requires now.Valid()
    ensures s.quitting == NoQuittingTime <==> dayTotal >= TargetHours
    ensures ParseHundredths(s.remaining).Some? && ParseHundredths(s.remaining).value >= 0
    ensures dayTotal < TargetHours ==> ParseTime(s.quitting).Some?
  {
    var remaining := Remaining(dayTotal);
    FormatHoursRounds(remaining);
    assert ParseHundredths(FormatHours(remaining)).value >= 0 by {
      var n := ParseHundredths(FormatHours(remaining)).value;
      assert n as real / 100.0 + 0.005 > 0.0;
    }
    DaySummary(FormatHours(dayTotal), FormatHours(remaining), QuittingDisplay(now, remaining))
  }

  /** What the day summary tells a reader: the day total and the hours
      still to go read back to within half a hundredth, and on a short day
      the quitting time reads back as the clamped time of day the
      remaining hours lead to. */
  lemma SummaryReadsBack(dayTotal: real, now: TimeOfDay)
    requires now.Valid()
    ensures ReadsBack(Summarize(dayTotal, now).total, dayTotal)
    ensures ReadsBack(Summarize(dayTotal, now).remaining, Remaining(dayTotal))
    ensures dayTotal < TargetHours ==>
      ParseTime(Summarize(dayTotal, now).quitting) == Some(QuittingTime(now, Remaining(dayTotal)))
  {
    FormatHoursRounds(dayTotal);
    FormatHoursRounds(Remaining(dayTotal));
  }

  /** The work done for one `.entry-running` element: the hours it adds to
      the day total and the texts written into it. */
  method RenderRunningEntry(e: RunningEntry, now: Instant) returns (duration: real, view: EntryView)
    requires now.clock.Valid()
    ensures duration == Contribution(e, now.ms)
    ensures view == ViewOf(e, now)
  {
    var total := FormatHours(RunningTotal(e, now.ms));
    if e.live {
      duration := HoursBetween(e.startMs, now.ms);
      view := EntryView(Some(FormatHours(duration)), Some(FormatTime(now.clock)), total);
    } else {
      duration := e.elapsedDuration;
      view := EntryView(None, None, total);
    }
  }

  /** The entry walk of one refresh tick: the running entries, then the
      stopped entries, in document order. It returns the texts written into
      each running entry and the accumulated day total, from which
      `Summarize` renders the day summary. */
  method UpdateActiveTimers(running: seq<RunningEntry>, stopped: seq<StoppedEntry>, now: Instant)
    returns (views: seq<EntryView>, dayTotal: real)
    requires now.clock.Valid()
    ensures |views| == |running|
    ensures forall i :: 0 <= i < |running| ==> views[i] == ViewOf(running[i], now)
    ensures dayTotal == DayTotal(running, stopped, now.ms)
  {
    dayTotal := 0.0;
    views := [];
    var i := 0;
    while i < |running|
      invariant 0 <= i <= |running|
      invariant |views| == i
      invariant forall k :: 0 <= k < i ==> views[k] == ViewOf(running[k], now)
      invariant dayTotal == RunningSum(running[..i], now.ms)
    {
      var duration, view := RenderRunningEntry(running[i], now);
      dayTotal := dayTotal + duration;
      assert running[..i + 1][..i] == running[..i];
      ghost var previous := views;
      views := views + [view];
      forall k | 0 <= k < i + 1
        ensures views[k] == ViewOf(running[k], now)
      {
        if k < i {
          assert views[k] == previous[k];
        }
      }
      i := i + 1;
    }
    assert running[..|running|] == running;

    var j := 0;
    while j < |stopped|
      invariant 0 <= j <= |stopped|
      invariant dayTotal == RunningSum(running, now.ms) + StoppedSum(stopped[..j])
    {
      dayTotal := dayTotal + stopped[j].elapsedDuration;
      assert stopped[..j + 1][..j] == stopped[..j];
      j := j + 1;
    }
    assert stopped[..|stopped|] == stopped;
  }

  /** Two hours fifteen minutes after two in the afternoon with four and a
      quarter hours to go, the day ends at `6:15 PM`. */
  lemma QuittingAfternoonExample()
    ensures Remaining(3.75) == 4.25
    ensures QuittingTime(TimeOfDay(14, 0), 4.25) == TimeOfDay(18, 15)
    ensures QuittingDisplay(TimeOfDay(14, 0), 4.25) == "6:15 PM"
  {
  }

  /** A projection past midnight is clamped to `11:59 PM`. */
  lemma QuittingClampExample()
    ensures QuittingDisplay(TimeOfDay(20, 0), 8.0) == "11:59 PM"
  {
  }
}

=== FILE: wrappers.dfy ===
/** Failure-carrying result types shared by the model. */
module Wrappers {

  /** A value that may be absent. */
  datatype Option<+T> = None | Some(value: T)

  /** Either a value or the error that the browser would have raised instead. */
  datatype Result<+R, +E> = Success(value: R) | Failure(error: E)
}
